=== FILE: README.md ===
# Policy & legal knowledge assistant — a Dafny model of its core

The system is a FastAPI back end for a question-answering assistant over uploaded policy and
legal documents. Administrators upload files. Each file is stored under a fresh name, cut
into chunks and added to a vector index. Users ask questions and get an answer with the
supporting context and a topic classification. A Markdown report can be built from a
question, its answer and the retrieved hits.

This project models the logic that decides what these operations do:

- `knowledge.dfy` (`module Knowledge`): the `KnowledgeStore` class from
  `app/backend/knowledge.py`. It builds its vector index lazily and at most once, and it
  swallows a failed load. `add_file` turns chunks into texts and metadata records, with
  `doc_id` and a 1-based `chunk_index`. `search` turns raw `(score, meta)` pairs into hits
  that always carry `text` and `score`. The vector index itself is an abstract class
  (`VectorIndex`) over a sequence of (text, metadata) records. Its `Search` returns `k`
  distinct records (all of them when it holds fewer), each as its metadata with its text under `"text"`, with scores it
  chooses freely.
- `api.dfy` (`module Api`): the request handlers of `app/api.py`. It covers
  `_sanitize_filename` and the stored name of an upload, the upload loop, `create_user`'s
  role check and the order of its duplicate checks, and the decision flow of `ask_ai`. That
  flow comprises the empty knowledge base, the "empty" mode, cyclic pseudo-labels for the
  bootstrap classifier, the top-3 classifier input and one context entry per hit.
- `report.dfy` (`module Report`): `_format_location` and `make_markdown_report` from
  `app/utils/report.py`, as functions that specify the report's lines and a method that
  builds them the way the source does.
- `schemas.dfy` (`module Schemas`): the field bounds and defaults of the request and
  response models in `app/backend/schemas.py`, as constructors that return either the
  model or a validation error.
- `values.dfy`, `strings.dfy` and `wrappers.dfy` hold shared definitions:
  - Python's dynamically typed metadata values (`Value`, `Meta`, `dict.get`, truthiness,
    `str()`);
  - `sep.join`, plus decimal rendering of integers with its round trip;
  - `Option` and `Result`.

Collaborators whose code is not part of this model appear as function parameters:
- the chunker `build_chunks`;
- `uuid4().hex` (the i-th call of an upload is `uuidHex(i)`);
- `answer_query`, `fit_and_save` and `predict`;
- the password hash;
- the `:.3f` score formatter;
- the report timestamp.

## Model

| member | source | states |
|---|---|---|
| Knowledge.VectorIndex.constructor | app/backend/knowledge.py:25 | a new index is empty and bound to its dimension and storage directory |
| Knowledge.VectorIndex.Load | app/backend/knowledge.py:26-29 | loading replaces the records with the saved ones; a corrupt store raises (returns its reason) and leaves the records as they were |
| Knowledge.VectorIndex.AddTexts | app/backend/knowledge.py:50 | the texts and metadata are appended pairwise, in order, after the existing records |
| Knowledge.VectorIndex.Save | app/backend/knowledge.py:51 | the storage directory afterwards holds exactly the current records |
| Knowledge.VectorIndex.Search | app/backend/knowledge.py:59 | min(k, number of records) raw hits, each carrying the metadata of a different stored record together with that record's text |
| Knowledge.VectorIndex.IsEmpty | app/backend/knowledge.py:72 | true exactly when the index holds no record |
| Knowledge.DistinctBelow | app/backend/knowledge.py:59 | pigeonhole: a sequence of distinct positions, all below n, has at most n entries |
| Knowledge.ChunkMeta | app/backend/knowledge.py:42-44 | the chunk's metadata keeps every other key, `doc_id` is overridden by the chunk's id, and `chunk_index` is the given position |
| Knowledge.ChunkRecords | app/backend/knowledge.py:41-46 | one record per chunk, in chunk order: the chunk's text, its `doc_id`, and `chunk_index` i+1 for the i-th chunk |
| Knowledge.BuildRecords | app/backend/knowledge.py:39-46 | the loop yields equally long text and metadata lists, the i-th built from the i-th chunk with position i+1 |
| Knowledge.Enrich | app/backend/knowledge.py:62-64 | a hit keeps the metadata, gains `text` ("" when absent) without overriding an existing one, and `score` overridden by the raw score |
| Knowledge.EnrichHits | app/backend/knowledge.py:60-66 | one hit per raw result, in the same order, each the enriched metadata |
| Knowledge.KnowledgeStore.constructor | app/backend/knowledge.py:13-21 | no index is built yet; the knowledge base is what the index directory holds |
| Knowledge.KnowledgeStore.EnsureIndex | app/backend/knowledge.py:23-31 | the index is built at most once and later calls return the same object unchanged; a load failure is logged as "Failed to load index: ..." and the index is still installed |
| Knowledge.KnowledgeStore.AddFile | app/backend/knowledge.py:34-53 | returns the chunk count; with no chunks nothing is touched, not even the index; otherwise the chunk records are appended and saved, the index object and the log behaving as in IsEmpty |
| Knowledge.KnowledgeStore.Search | app/backend/knowledge.py:56-66 | the knowledge base is unchanged; min(k, number of records) hits, from distinct records, each the record's enriched metadata with `score` the raw score and `text` the record's stored text; the index object and the log behave as in IsEmpty |
| Knowledge.KnowledgeStore.IsEmpty | app/backend/knowledge.py:69-72 | true exactly when the knowledge base holds no record; the knowledge base and the stored index are unchanged; an index already built stays the same object and the log is untouched; otherwise the index is built now and the log gains the load warning of a corrupt store |
| Strings.Digits | app/utils/report.py:32 | the decimal digits of a natural number: nonempty, digits only, no leading zero |
| Strings.DecimalString | app/utils/report.py:32 | `str(n)`: digits, with a leading '-' exactly for negative numbers |
| Strings.DigitsRoundTrip | app/utils/report.py:32 | reading the digits of n back gives n |
| Strings.DecimalRoundTrip | app/utils/report.py:32 | reading `str(n)` back gives n |
| Strings.DecimalInjective | app/utils/report.py:32 | different numbers are written differently |
| Report.FormatLocation | app/utils/report.py:10-18 | the location is "" exactly when none of page, section and section_chunk is truthy |
| Report.LocationOrder | app/utils/report.py:11-18 | the exact location for each of the eight combinations of truthy fields: only truthy ones, in the order page, section, section_chunk, with prefixes "hal. ", "paragraf ", "bagian ", joined by ", " |
| Report.ZeroIsAbsent | app/utils/report.py:12-17 | a falsy page, section or section_chunk (0 among them) counts as absent: the location equals the one without that key |
| Report.LocationNote | app/utils/report.py:30-31 | the note is "" exactly when none of the three fields is truthy; otherwise it is the location enclosed in " (" and ")" |
| Report.SourceOf | app/utils/report.py:28 | `source` when truthy, else `doc_id` when truthy, else "-"; always truthy |
| Report.Snippet | app/utils/report.py:33 | a prefix of the text of at most 800 characters; a text of up to 800 is kept whole |
| Report.ReferenceLineNumber | app/utils/report.py:27-32 | a reference line opens with its number in decimal, then ". ", and the number reads back |
| Report.ReferenceLinesDistinct | app/utils/report.py:27-32 | differently numbered references never produce the same line |
| Report.ReferencesAt | app/utils/report.py:27-34 | two lines per hit: line 2i is the reference numbered i+1 for hit i, line 2i+1 its snippet |
| Report.ReferencesLength | app/utils/report.py:27-34 | the references take exactly two lines per hit |
| Report.ReferencesGrow | app/utils/report.py:27-34 | one more hit adds its reference and snippet lines at the end |
| Report.HeaderLayout | app/utils/report.py:22-26 | the header has ten lines: title, generation line, blank, "Pertanyaan" heading, query, blank, "Jawaban/Analisis" heading, answer, blank, "Referensi Konteks" heading |
| Report.ReportLayout | app/utils/report.py:21-37 | the report is 10 header lines, then two lines per hit in hit order, then the three recommendation lines exactly when `rec` is nonempty |
| Report.HitLines | app/utils/report.py:28-34 | the loop body computes the reference and snippet lines of one hit |
| Report.AppendReferences | app/utils/report.py:27-34 | the loop appends the reference lines of all hits, in order, after the given lines |
| Report.MakeMarkdownReport | app/utils/report.py:21-37 | the report is the newline-join of the specified lines |
| Schemas.NewTokenResponse | app/backend/schemas.py:7-9 | `token_type` defaults to "bearer" |
| Schemas.NewUserCreate | app/backend/schemas.py:33-37 | accepted exactly when the password has at least 6 characters; role defaults to "user" |
| Schemas.NewUserRegister | app/backend/schemas.py:85-88 | accepted exactly when the password has at least 6 characters |
| Schemas.NewChatRequest | app/backend/schemas.py:56-59 | accepted exactly when the question has at least 4 characters and a given top_k lies in 1..10; top_k defaults to 5, use_llm to false |
| Schemas.NewContextHit | app/backend/schemas.py:62-69 | only `text` is required; every other field defaults to None |
| Api.ReplaceDisallowed | app/api.py:121 | letters, digits, '.', '_' and '-' are kept, every other character (including '/') becomes '_' |
| Api.StripLeft | app/api.py:122 | `lstrip("._")`: drops exactly the leading run of '.' and '_' |
| Api.StripRight | app/api.py:122 | `rstrip("._")`: drops exactly the trailing run of '.' and '_' |
| Api.Strip | app/api.py:122 | the stripped string neither starts nor ends with '.' or '_' |
| Api.StripIsMiddle | app/api.py:122 | `strip` keeps the contiguous middle of the string between a leading and a trailing run of '.' and '_' |
| Api.StripKeepsAllowed | app/api.py:121-122 | stripping a string of allowed characters leaves "" or a safe name |
| Api.SanitizeFilename | app/api.py:120-123 | the result is nonempty, holds only allowed characters, neither starts nor ends with '.' or '_', and is never "/", "." or ".." |
| Api.SafeNameStaysInDirectory | app/api.py:120-123 | a sanitised name contains no '/' and is neither "." nor ".." |
| Api.SanitizeFallback | app/api.py:122 | the "upload" fallback is taken exactly when the name has no letter, digit or '-' |
| Api.SanitizeKeepsSafe | app/api.py:120-123 | a name that is already safe is returned unchanged |
| Api.SanitizeIdempotent | app/api.py:120-123 | sanitising twice equals sanitising once |
| Api.SafeUploadName | app/api.py:137 | the sanitised part of a stored name is a safe name |
| Api.SafeUploadNameIsSanitized | app/api.py:137 | that part is `_sanitize_filename(filename or "document")` |
| Api.StoredNameLayout | app/api.py:137-138 | a stored name is the uuid hex, then '_', then the sanitised filename |
| Api.StoredNamesDistinct | app/api.py:138 | different uuids of the same width never give the same stored name |
| Api.StoredNameIsSafe | app/api.py:137-139 | with a hex uuid, every character of the stored name is allowed, so the destination stays in the uploads directory |
| Api.UploadsAt | app/api.py:135-165 | the i-th result is the i-th file's: stored under the i-th uuid, original name the filename or else the stored name, and its chunk count |
| Api.UploadStep | app/api.py:136-165 | one more file adds its result and its records at the end |
| Api.UploadOne | app/api.py:137-145 | the loop body stores one file under its fresh name and ingests it under the filename, or else the stored name, as `doc_id`; the file's chunk records are appended, and when there are any the index directory holds the records afterwards, otherwise it is untouched |
| Api.UploadAll | app/api.py:135-166 | the loop reports every file in order, and the knowledge base gains the records of every file in order; once any record was ingested the index directory holds the current records, and with none it is untouched; an index already built stays the same object, and the log gains at most the one load warning of building the index |
| Api.UploadDocuments | app/api.py:132-166 | an empty upload is refused with 400 "No files uploaded"; otherwise one result per file, in order, with the knowledge base, the index directory and the log as in UploadAll |
| Api.CreateUser | app/api.py:99-117 | an unknown role gives 400 "Invalid role" before any duplicate check; then a taken username, then a taken email; otherwise the new active user is appended |
| Api.CreateUserKeepsWellFormed | app/api.py:99-116 | creating a user keeps usernames and emails unique and roles within {"admin", "user"} |
| Api.BootstrapLabelsPrefix | app/api.py:208 | the pseudo-labels start with the label vocabulary in order |
| Api.BootstrapLabelsPeriodic | app/api.py:208 | the pseudo-labels repeat with period |LABELS| |
| Api.BootstrapLabelsCover | app/api.py:208 | with at least as many hits as labels, every label is used for training |
| Api.ClassifierInput | app/api.py:214 | the join succeeds exactly when the first min(3, n) texts are strings |
| Api.ClassifierInputLayout | app/api.py:214 | when the first min(3, n) texts are strings, whatever the later ones are, the classifier reads those texts separated by single spaces |
| Api.ContextOf | app/api.py:217-228 | a context entry copies `doc_id`, `source`, `score`, `page`, `section`, `section_chunk`, with `text` defaulting to ""; it fails only on a None text |
| Api.Context | app/api.py:217-228 | one context entry per hit, in hit order, each the ContextOf its hit: all seven fields copied with `text` defaulting to "" |
| Api.Respond | app/api.py:198-235 | no hits gives "No results found." in mode "empty" with no context and no training; training happens only without a stored model, on the hit texts with cyclic labels; a successful answer carries the answer and mode of `answer_query`, the context and the prediction on the top-3 input |
| Api.AskAi | app/api.py:195-235 | an empty knowledge base gives 400 before any search; otherwise the hits are the store's search results for top_k (min(top_k, number of records) distinct records, so at least one, each enriched with its stored text) and the response is the decision of Respond on them, which succeeds whenever a model is stored or labels exist; the knowledge base and the index directory are unchanged, the index is built (the same object if it already was) and the log gains the load warning only when the index is built now |

## Left out

- The `RLock` of the knowledge store: every operation is modelled as one atomic step.
- The vector index, embeddings and ranking (`app/nlp/embedding.py` is not part of this model).
  Search picks any `k` distinct records (all when there are fewer) and gives them arbitrary scores. Scores are
  opaque numbers with a printed form; no floating-point arithmetic is modelled.
- Knowledge.VectorIndex.Search: the index is assumed to return each record's metadata with the
  record's text under `"text"`. Which records it returns, in what order and with what scores is
  left open (`app/nlp/embedding.py` is not part of this model).
- Knowledge.KnowledgeStore.AddFile: the chunker, `add_texts` and `save` cannot fail in the model.
  In the source, an unsupported format, an embedding of the wrong size or a failed write raises.
- Api.UploadDocuments: always succeeds for a non-empty upload. In the source, a failure on the
  j-th file ends the request with a 500, and files 0..j-1 stay stored, ingested and recorded.
- The chunker (`app/nlp/ingest.py` is not part of this model): a function from (path, doc_id)
  to chunks. Reading the uploaded bytes, copying them to disk and creating the directories
  are left out.
- Knowledge.VectorIndex.Load: what a failing load leaves in a half-loaded index is unknown,
  so the model keeps the records it had. A corrupt store is the only failure modelled.
- Knowledge.KnowledgeStore.EnsureIndex: the log records only the warning text; the logger
  itself is left out.
- Api.SanitizeFilename: only ASCII letters and digits count as alphanumeric. Python's
  `str.isalnum` also accepts other Unicode letters and digits, which the model replaces by '_'.
- Api.UploadDocuments: the database rows are left out. That covers the document's id and
  `uploaded_at`, and the commit.
- Api.UploadDocuments: the uuids are a parameter, so their freshness is an assumption.
  Api.StoredNamesDistinct shows what distinct uuids give.
- Api.CreateUser: the user table is a sequence of rows. Database ids, `created_at` and
  transactions are left out. The password hash is a parameter.
- `register_user`, `login`, `list_documents`, `read_me`, `health_check` and startup are not
  modelled. Only their request schemas are.
- `answer_query`, `fit_and_save`, `load_model` and `predict` (the classifier module is not
  part of this model) are parameters. `load_model` after `fit_and_save` is assumed to
  return the model just fitted, and any model is assumed truthy.
- Api.Respond: every exception raised after the search becomes the same 500 response,
  as FastAPI does for an unhandled exception. The cases are:
  - an empty label vocabulary (`i % 0`);
  - joining a text that is not a string;
  - a context entry whose text is None.
  The model also keeps a model stored before the exception.
- Schemas.NewContextHit: pydantic's type coercion and type errors for the other fields are
  not modelled. Only a missing or None `text` is an error.
- Schemas.NewUserCreate: `EmailStr` validation of e-mail addresses is not modelled.
- Schemas.NewUserRegister: `EmailStr` validation of e-mail addresses is not modelled.
- Report.MakeMarkdownReport: the score formatter is total. In the source, `{score:.3f}` raises
  for a score that is None or a string, and no report is built.
- Report.MakeMarkdownReport: requires every hit's text to be a string or absent. In the
  source, slicing another kind of value raises and no report is built.
- Report.MakeMarkdownReport: `datetime.now()` is a timestamp parameter, and the `:.3f`
  score format is a function parameter.
- `make_pdf_report` converts through the `markdown` and `xhtml2pdf` libraries and is not
  modelled.
- `app/app.py` (the Streamlit UI), `app/backend/auth.py` (JWT tokens and password hashing),
  `app/backend/models.py` and `app/backend/db.py` (ORM tables and sessions) are not part of
  this model.

=== FILE: api.dfy ===
/**
 * The request handlers' logic: filename sanitising and stored names for uploads, the
 * administrator's user creation, and the question-answering flow with its bootstrapped
 * topic classifier. HTTP routing, authentication and the database are outside the model;
 * the answer synthesiser and the classifier are function parameters.
 */
module Api {
  import opened Wrappers
  import opened Values
  import Strings
  import opened Schemas
  import opened Knowledge

  /** An `HTTPException`: a status code and a detail message. */
  datatype HttpError = HttpError(status: int, detail: string)

  /** What an uncaught exception in a handler becomes. */
  const InternalError := HttpError(500, "Internal Server Error")

  // ---------------------------------------------------------------------------
  // Filenames

  /** `ch.isalnum()`, restricted to ASCII letters and digits. */
  predicate IsAlnum(c: char)
  {
    'a' <= c <= 'z' || 'A' <= c <= 'Z' || '0' <= c <= '9'
  }

  /** The characters a sanitised filename may contain. */
  predicate Allowed(c: char)
  {
    IsAlnum(c) || c == '.' || c == '_' || c == '-'
  }

  predicate AllAllowed(s: string)
  {
    forall i :: 0 <= i < |s| ==> Allowed(s[i])
  }

  /** The characters `strip("._")` removes from the ends. */
  predicate Stripped(c: char)
  {
    c == '.' || c == '_'
  }

  /** Every character that is not allowed becomes '_'. */
  function ReplaceDisallowed(name: string): (r: string)
    ensures |r| == |name|
    ensures forall i :: 0 <= i < |r| ==> Allowed(r[i])
    ensures forall i :: 0 <= i < |r| ==> if Allowed(name[i]) then r[i] == name[i] else r[i] == '_'
  {
    seq(|name|, i requires 0 <= i < |name| => if Allowed(name[i]) then name[i] else '_')
  }

  /** `s.lstrip("._")`. */
  function StripLeft(s: string): (r: string)
    ensures |r| <= |s| && r == s[|s| - |r|..]
    ensures forall i :: 0 <= i < |s| - |r| ==> Stripped(s[i])
    ensures r != [] ==> !Stripped(r[0])
  {
    if s != [] && Stripped(s[0]) then StripLeft(s[1..]) else s
  }

  /** `s.rstrip("._")`. */
  function StripRight(s: string): (r: string)
    ensures |r| <= |s| && r == s[..|r|]
    ensures forall i :: |r| <= i < |s| ==> Stripped(s[i])
    ensures r != [] ==> !Stripped(r[|r| - 1])
  {
    if s != [] && Stripped(s[|s| - 1]) then StripRight(s[..|s| - 1]) else s
  }

  /** `s.strip("._")`. */
  function Strip(s: string): (r: string)
    ensures |r| <= |s|
    ensures r != [] ==> !Stripped(r[0]) && !Stripped(r[|r| - 1])
  {
    StripRight(StripLeft(s))
  }

  /**
   * What `strip` keeps: the part of `s` between a run of '.' and '_' at the front and one at
   * the back (all of `s` goes when it holds nothing else).
   */
  lemma StripIsMiddle(s: string) returns (lo: nat)
    ensures lo + |Strip(s)| <= |s| && Strip(s) == s[lo..lo + |Strip(s)|]
    ensures forall k :: 0 <= k < lo ==> Stripped(s[k])
    ensures forall k :: lo + |Strip(s)| <= k < |s| ==> Stripped(s[k])
  {
    var l := StripLeft(s);
    lo := |s| - |l|;
    MiddleOfSuffix(s, l, StripRight(l));
  }

  /** A prefix `r` of a suffix `l` of `s` sits in `s` at `|s| - |l|`, followed by the rest of `l`. */
  lemma MiddleOfSuffix(s: string, l: string, r: string)
    requires |l| <= |s| && l == s[|s| - |l|..]
    requires |r| <= |l| && r == l[..|r|]
    requires forall i :: |r| <= i < |l| ==> Stripped(l[i])
    ensures var lo := |s| - |l|;
      && r == s[lo..lo + |r|]
      && forall k :: lo + |r| <= k < |s| ==> Stripped(s[k])
  {
    var lo := |s| - |l|;
    forall k | lo + |r| <= k < |s|
      ensures Stripped(s[k])
    {
      assert s[k] == l[k - lo];
    }
  }

  /** Stripping the ends of a name of allowed characters leaves a safe name, or nothing. */
  lemma StripKeepsAllowed(s: string)
    requires forall i :: 0 <= i < |s| ==> Allowed(s[i])
    ensures Strip(s) == "" || IsSafeName(Strip(s))
  {
    var r := Strip(s);
    var lo := StripIsMiddle(s);
    forall i | 0 <= i < |r|
      ensures Allowed(r[i])
    {
      assert r[i] == s[lo + i];
    }
  }

  /** A filename that sanitising leaves as it is. */
  predicate IsSafeName(s: string)
  {
    s != [] && AllAllowed(s) && !Stripped(s[0]) && !Stripped(s[|s| - 1])
  }

  /** A safe name cannot climb out of the uploads directory. */
  lemma SafeNameStaysInDirectory(s: string)
    requires IsSafeName(s)
    ensures '/' !in s && s != "." && s != ".."
  {
  }

  /** The fallback name is itself safe. */
  lemma FallbackIsSafe()
    ensures IsSafeName("upload")
  {
  }

  /** `_sanitize_filename`: disallowed characters become '_', then '.' and '_' are stripped from the ends. */
  function SanitizeFilename(name: string): (r: string)
    ensures IsSafeName(r)
    ensures '/' !in r && r != "." && r != ".."
  {
    var clean := Strip(ReplaceDisallowed(name));
    StripKeepsAllowed(ReplaceDisallowed(name));
    FallbackIsSafe();
    var r := if clean == "" then "upload" else clean;
    SafeNameStaysInDirectory(r);
    r
  }

  /** The fallback is taken exactly when no character is a letter, a digit or '-'. */
  lemma SanitizeFallback(name: string)
    ensures Strip(ReplaceDisallowed(name)) == "" <==>
            forall i :: 0 <= i < |name| ==> !IsAlnum(name[i]) && name[i] != '-'
  {
    var m := ReplaceDisallowed(name);
    var lo := StripIsMiddle(m);
    if Strip(m) != "" {
      assert Strip(m)[0] == m[lo];
      assert Allowed(name[lo]) && !Stripped(name[lo]);
    } else {
      forall i | 0 <= i < |name|
        ensures !IsAlnum(name[i]) && name[i] != '-'
      {
        assert Stripped(m[i]);
      }
    }
  }

  /** A name that is already safe is left as it is. */
  lemma {:induction false} SanitizeKeepsSafe(s: string)
    requires IsSafeName(s)
    ensures SanitizeFilename(s) == s
  {
    assert ReplaceDisallowed(s) == s;
    assert StripLeft(s) == s;
    assert StripRight(s) == s;
  }

  /** Sanitising twice is sanitising once. */
  lemma SanitizeIdempotent(name: string)
    ensures SanitizeFilename(SanitizeFilename(name)) == SanitizeFilename(name)
  {
    SanitizeKeepsSafe(SanitizeFilename(name));
  }

  /** `filename or default`: an absent or empty filename gives the default. */
  function FilenameOr(filename: Option<string>, default: string): (r: string)
    ensures filename.Some? && filename.value != "" ==> r == filename.value
    ensures filename.None? || filename.value == "" ==> r == default
  {
    if filename.Some? && filename.value != "" then filename.value else default
  }

  /**
   * The sanitised part of a stored name; "document" is what a nameless upload is called.
   * "document" is already safe, so it is written out rather than sanitised.
   */
  function SafeUploadName(filename: Option<string>): (r: string)
    ensures IsSafeName(r)
  {
    if filename.Some? && filename.value != "" then SanitizeFilename(filename.value) else "document"
  }

  /** It is `_sanitize_filename(file.filename or "document")`. */
  lemma SafeUploadNameIsSanitized(filename: Option<string>)
    ensures SafeUploadName(filename) == SanitizeFilename(FilenameOr(filename, "document"))
  {
    if filename.None? || filename.value == "" {
      SanitizeKeepsSafe("document");
    }
  }

  /** The name an upload is stored under: the uuid's hex digits, '_', the sanitised filename. */
  function StoredName(hex: string, filename: Option<string>): string
  {
    hex + "_" + SafeUploadName(filename)
  }

  /** A stored name splits back into the uuid part, the '_' and the sanitised filename. */
  lemma StoredNameLayout(hex: string, filename: Option<string>)
    ensures var r := StoredName(hex, filename);
      && |r| > |hex| + 1 && r[..|hex|] == hex && r[|hex|] == '_'
      && r[|hex| + 1..] == SanitizeFilename(FilenameOr(filename, "document"))
  {
    SafeUploadNameIsSanitized(filename);
    var r := StoredName(hex, filename);
    assert r[|hex| + 1..] == SafeUploadName(filename);
  }

  /** Uploads with different uuids of the same width never share a stored name. */
  lemma StoredNamesDistinct(hex1: string, hex2: string, f1: Option<string>, f2: Option<string>)
    requires |hex1| == |hex2| && hex1 != hex2
    ensures StoredName(hex1, f1) != StoredName(hex2, f2)
  {
    StoredNameLayout(hex1, f1);
    StoredNameLayout(hex2, f2);
  }

  lemma ConcatAllowed(a: string, b: string)
    requires AllAllowed(a) && AllAllowed(b)
    ensures AllAllowed(a + b)
  {
    forall i | 0 <= i < |a + b|
      ensures Allowed((a + b)[i])
    {
      if i >= |a| {
        assert (a + b)[i] == b[i - |a|];
      }
    }
  }

  /** Every character of a stored name is safe for the uploads directory when the uuid part is hex. */
  lemma StoredNameIsSafe(hex: string, filename: Option<string>)
    requires forall i :: 0 <= i < |hex| ==> IsAlnum(hex[i])
    ensures AllAllowed(StoredName(hex, filename))
  {
    assert AllAllowed("_");
    ConcatAllowed(hex, "_");
    ConcatAllowed(hex + "_", SafeUploadName(filename));
  }

  // ---------------------------------------------------------------------------
  // Uploads

  /** An uploaded file; its bytes are not modelled. */
  datatype UploadFile = UploadFile(filename: Option<string>)

  datatype Uploader = Uploader(id: int, username: string)

  /** A `DocumentUploadResult`, without the database's id and timestamp. */
  datatype UploadResult = UploadResult(
    originalFilename: string, storedFilename: string,
    uploadedBy: int, uploaderUsername: string, chunksIndexed: nat)

  function UploadPath(uploadsDir: string, stored: string): string
  {
    uploadsDir + "/" + stored
  }

  /** The chunks the i-th file of an upload yields. */
  function UploadChunks(uploadsDir: string, i: nat, f: UploadFile, uuidHex: nat -> string,
                        chunker: (string, string) -> seq<Chunk>): seq<Chunk>
  {
    var stored := StoredName(uuidHex(i), f.filename);
    chunker(UploadPath(uploadsDir, stored), FilenameOr(f.filename, stored))
  }

  /** The result reported for the i-th file of an upload. */
  function UploadOf(uploadsDir: string, i: nat, f: UploadFile, uploader: Uploader, uuidHex: nat -> string,
                    chunker: (string, string) -> seq<Chunk>): UploadResult
  {
    var stored := StoredName(uuidHex(i), f.filename);
    UploadResult(FilenameOr(f.filename, stored), stored, uploader.id, uploader.username,
                 |UploadChunks(uploadsDir, i, f, uuidHex, chunker)|)
  }

  /** `[f(0, xs[0]), f(1, xs[1]), ...]`, built from the front. */
  function MapIndexed<T, U>(xs: seq<T>, f: (nat, T) -> U): (r: seq<U>)
    ensures |r| == |xs|
  {
    if xs == [] then [] else
      var n := |xs| - 1;
      MapIndexed(xs[..n], f) + [f(n, xs[n])]
  }

  lemma {:induction false} MapIndexedAt<T, U>(xs: seq<T>, f: (nat, T) -> U, i: nat)
    requires i < |xs|
    ensures MapIndexed(xs, f)[i] == f(i, xs[i])
  {
    var n := |xs| - 1;
    if i < n {
      MapIndexedAt(xs[..n], f, i);
      assert xs[..n][i] == xs[i];
    }
  }

  lemma MapIndexedStep<T, U>(xs: seq<T>, f: (nat, T) -> U, i: nat)
    requires i < |xs|
    ensures MapIndexed(xs[..i + 1], f) == MapIndexed(xs[..i], f) + [f(i, xs[i])]
  {
    assert xs[..i + 1][..i] == xs[..i];
  }

  /** The results reported for an upload of `files`, in file order. */
  function Uploads(uploadsDir: string, files: seq<UploadFile>, uploader: Uploader, uuidHex: nat -> string,
                   chunker: (string, string) -> seq<Chunk>): (r: seq<UploadResult>)
    ensures |r| == |files|
  {
    MapIndexed(files, (i: nat, f: UploadFile) => UploadOf(uploadsDir, i, f, uploader, uuidHex, chunker))
  }

  /** The i-th result is the i-th file's: stored under the i-th uuid, with its chunk count. */
  lemma UploadsAt(uploadsDir: string, files: seq<UploadFile>, uploader: Uploader,
                  uuidHex: nat -> string, chunker: (string, string) -> seq<Chunk>, i: nat)
    requires i < |files|
    ensures var u := Uploads(uploadsDir, files, uploader, uuidHex, chunker)[i];
      && u.storedFilename == StoredName(uuidHex(i), files[i].filename)
      && u.originalFilename == FilenameOr(files[i].filename, u.storedFilename)
      && u.chunksIndexed == |UploadChunks(uploadsDir, i, files[i], uuidHex, chunker)|
      && u.uploadedBy == uploader.id && u.uploaderUsername == uploader.username
  {
    MapIndexedAt(files, (i: nat, f: UploadFile) => UploadOf(uploadsDir, i, f, uploader, uuidHex, chunker), i);
  }

  /** Taking one more file of an upload adds its result and its records at the end. */
  lemma UploadStep(uploadsDir: string, files: seq<UploadFile>, i: nat, uploader: Uploader,
                   uuidHex: nat -> string, chunker: (string, string) -> seq<Chunk>)
    requires i < |files|
    ensures Uploads(uploadsDir, files[..i + 1], uploader, uuidHex, chunker)
         == Uploads(uploadsDir, files[..i], uploader, uuidHex, chunker)
            + [UploadOf(uploadsDir, i, files[i], uploader, uuidHex, chunker)]
    ensures Ingested(uploadsDir, files[..i + 1], uuidHex, chunker)
         == Ingested(uploadsDir, files[..i], uuidHex, chunker)
            + ChunkRecords(UploadChunks(uploadsDir, i, files[i], uuidHex, chunker))
  {
    MapIndexedStep(files, (i: nat, f: UploadFile) => UploadOf(uploadsDir, i, f, uploader, uuidHex, chunker), i);
    assert files[..i + 1][..i] == files[..i];
  }

  /** The records that uploading `files` adds to the knowledge base, file after file. */
  function Ingested(uploadsDir: string, files: seq<UploadFile>, uuidHex: nat -> string,
                    chunker: (string, string) -> seq<Chunk>): seq<Record>
  {
    if files == [] then []
    else
      var n := |files| - 1;
      Ingested(uploadsDir, files[..n], uuidHex, chunker)
      + ChunkRecords(UploadChunks(uploadsDir, n, files[n], uuidHex, chunker))
  }

  /** The body of the upload loop for the i-th file: store it under its fresh name and ingest it. */
  method UploadOne(store: KnowledgeStore, i: nat, file: UploadFile, uploader: Uploader,
                   uuidHex: nat -> string, chunker: (string, string) -> seq<Chunk>)
    returns (result: UploadResult)
    requires store.Valid()
    modifies store.Repr
    ensures store.Valid() && fresh(store.Repr - old(store.Repr))
    ensures result == UploadOf(store.uploadsDir, i, file, uploader, uuidHex, chunker)
    ensures store.KeptSince(old(store.index), old(store.warnings))
    ensures store.Records() == old(store.Records()) + ChunkRecords(UploadChunks(store.uploadsDir, i, file, uuidHex, chunker))
    ensures store.SavedSince(old(store.Persisted()), ChunkRecords(UploadChunks(store.uploadsDir, i, file, uuidHex, chunker)))
  {
    var storedName := StoredName(uuidHex(i), file.filename);
    var destination := UploadPath(store.uploadsDir, storedName);
    var docId := FilenameOr(file.filename, storedName);
    ghost var chunks := UploadChunks(store.uploadsDir, i, file, uuidHex, chunker);
    assert chunks == chunker(destination, docId);
    var chunksIndexed := store.AddFile(destination, docId, chunker);
    result := UploadResult(docId, storedName, uploader.id, uploader.username, chunksIndexed);
  }

  /** The upload loop: every file in turn, in order. */
  method UploadAll(store: KnowledgeStore, files: seq<UploadFile>, uploader: Uploader,
                   uuidHex: nat -> string, chunker: (string, string) -> seq<Chunk>)
    returns (results: seq<UploadResult>)
    requires store.Valid()
    modifies store.Repr
    ensures store.Valid() && fresh(store.Repr - old(store.Repr))
    ensures results == Uploads(store.uploadsDir, files, uploader, uuidHex, chunker)
    ensures store.KeptSince(old(store.index), old(store.warnings))
    ensures store.Records() == old(store.Records()) + Ingested(store.uploadsDir, files, uuidHex, chunker)
    ensures store.SavedSince(old(store.Persisted()), Ingested(store.uploadsDir, files, uuidHex, chunker))
  {
    var dir := store.uploadsDir;
    results := [];
    for i := 0 to |files|
      invariant store.Valid() && fresh(store.Repr - old(store.Repr))
      invariant results == Uploads(dir, files[..i], uploader, uuidHex, chunker)
      invariant store.KeptSince(old(store.index), old(store.warnings))
      invariant store.Records() == old(store.Records()) + Ingested(dir, files[..i], uuidHex, chunker)
      invariant store.SavedSince(old(store.Persisted()), Ingested(dir, files[..i], uuidHex, chunker))
    {
      var result := UploadOne(store, i, files[i], uploader, uuidHex, chunker);
      UploadStep(dir, files, i, uploader, uuidHex, chunker);
      ghost var added := ChunkRecords(UploadChunks(dir, i, files[i], uuidHex, chunker));
      assert added == [] ==> Ingested(dir, files[..i + 1], uuidHex, chunker) == Ingested(dir, files[..i], uuidHex, chunker);
      assert added != [] ==> Ingested(dir, files[..i + 1], uuidHex, chunker) != [];
      Strings.ConcatAssoc(old(store.Records()), Ingested(dir, files[..i], uuidHex, chunker),
                  ChunkRecords(UploadChunks(dir, i, files[i], uuidHex, chunker)));
      results := results + [result];
    }
    assert files[..|files|] == files;
  }

  /**
   * `upload_documents`: each file is stored under a fresh name and ingested, in order.
   * The i-th call to uuid4 is `uuidHex(i)`.
   */
  method UploadDocuments(store: KnowledgeStore, files: seq<UploadFile>, uploader: Uploader,
                         uuidHex: nat -> string, chunker: (string, string) -> seq<Chunk>)
    returns (r: Result<seq<UploadResult>, HttpError>)
    requires store.Valid()
    modifies store.Repr
    ensures store.Valid() && fresh(store.Repr - old(store.Repr))
    ensures files == [] ==> r == Err(HttpError(400, "No files uploaded"))
    ensures files != [] ==> r == Ok(Uploads(store.uploadsDir, files, uploader, uuidHex, chunker))
    ensures store.KeptSince(old(store.index), old(store.warnings))
    ensures store.Records() == old(store.Records()) + Ingested(store.uploadsDir, files, uuidHex, chunker)
    ensures store.SavedSince(old(store.Persisted()), Ingested(store.uploadsDir, files, uuidHex, chunker))
  {
    if files == [] {
      return Err(HttpError(400, "No files uploaded"));
    }
    var results := UploadAll(store, files, uploader, uuidHex, chunker);
    r := Ok(results);
  }

  // ---------------------------------------------------------------------------
  // Users

  datatype UserRow = UserRow(username: string, email: string, hashedPassword: string, role: string, isActive: bool)

  const Roles: set<string> := {"admin", "user"}

  function Usernames(users: seq<UserRow>): set<string>
  {
    set u | u in users :: u.username
  }

  function Emails(users: seq<UserRow>): set<string>
  {
    set u | u in users :: u.email
  }

  /** What the user table keeps: unique usernames, unique emails, known roles. */
  predicate WellFormedUsers(users: seq<UserRow>)
  {
    && (forall i, j :: 0 <= i < j < |users| ==> users[i].username != users[j].username)
    && (forall i, j :: 0 <= i < j < |users| ==> users[i].email != users[j].email)
    && (forall i :: 0 <= i < |users| ==> users[i].role in Roles)
  }

  datatype Created = Created(users: seq<UserRow>, user: UserRow)

  /**
   * `create_user`: the role is checked first, then the username, then the email; a new
   * active user is appended to the table. `hash` is the password hash.
   */
  function CreateUser(users: seq<UserRow>, payload: UserCreate, hash: string -> string)
    : (r: Result<Created, HttpError>)
    ensures payload.role !in Roles ==> r == Err(HttpError(400, "Invalid role"))
    ensures payload.role in Roles && payload.username in Usernames(users) ==>
      r == Err(HttpError(400, "username already exists"))
    ensures payload.role in Roles && payload.username !in Usernames(users) && payload.email in Emails(users) ==>
      r == Err(HttpError(400, "email already exists"))
    ensures r.Ok? <==>
      payload.role in Roles && payload.username !in Usernames(users) && payload.email !in Emails(users)
    ensures r.Ok? ==> r.value.users == users + [r.value.user]
    ensures r.Ok? ==> r.value.user == UserRow(payload.username, payload.email, hash(payload.password), payload.role, true)
  {
    if payload.role !in Roles then Err(HttpError(400, "Invalid role"))
    else if payload.username in Usernames(users) then Err(HttpError(400, "username already exists"))
    else if payload.email in Emails(users) then Err(HttpError(400, "email already exists"))
    else
      var user := UserRow(payload.username, payload.email, hash(payload.password), payload.role, true);
      Ok(Created(users + [user], user))
  }

  /** Creating a user keeps the table well formed. */
  lemma CreateUserKeepsWellFormed(users: seq<UserRow>, payload: UserCreate, hash: string -> string)
    requires WellFormedUsers(users)
    requires CreateUser(users, payload, hash).Ok?
    ensures WellFormedUsers(CreateUser(users, payload, hash).value.users)
  {
    var after := CreateUser(users, payload, hash).value.users;
    var n := |users|;
    forall i | 0 <= i < n
      ensures after[i].username != after[n].username && after[i].email != after[n].email
    {
      assert users[i] in users;
    }
  }

  // ---------------------------------------------------------------------------
  // Questions

  /** What the answer synthesiser returns. */
  datatype QaResult = QaResult(answer: string, mode: string)

  /** What the classifier predicts: a label and its probability. */
  datatype Prediction = Prediction(labelName: string, proba: Float)

  /** The response of a question, and the classifier model stored afterwards. */
  datatype AskOutcome<M> = AskOutcome(response: Result<ChatResponse, HttpError>, model: Option<M>)

  const NoResults := ChatResponse("No results found.", "empty", [], None)

  const EmptyKnowledgeBase := HttpError(400, "Knowledge base is empty. Admin needs to upload documents.")

  predicate HitsHaveText(hits: seq<Meta>)
  {
    forall i :: 0 <= i < |hits| ==> "text" in hits[i]
  }

  /** The pseudo-labels for training: the label vocabulary repeated cyclically. */
  function BootstrapLabels(n: nat, labels: seq<string>): (r: seq<string>)
    requires |labels| > 0
    ensures |r| == n
  {
    seq(n, i requires 0 <= i < n => labels[i % |labels|])
  }

  /** The pseudo-labels start with the vocabulary in order. */
  lemma BootstrapLabelsPrefix(n: nat, labels: seq<string>)
    requires |labels| > 0
    ensures forall i :: 0 <= i < n && i < |labels| ==> BootstrapLabels(n, labels)[i] == labels[i]
  {
  }

  /** The pseudo-labels repeat with period `|labels|`. */
  lemma BootstrapLabelsPeriodic(n: nat, labels: seq<string>)
    requires |labels| > 0
    ensures forall i :: 0 <= i && i + |labels| < n ==>
      BootstrapLabels(n, labels)[i + |labels|] == BootstrapLabels(n, labels)[i]
  {
    var r := BootstrapLabels(n, labels);
    forall i | 0 <= i && i + |labels| < n
      ensures r[i + |labels|] == r[i]
    {
      ModPeriod(i, |labels|);
    }
  }

  /** With at least as many hits as labels, every label is used for training. */
  lemma BootstrapLabelsCover(n: nat, labels: seq<string>)
    requires |labels| > 0 && n >= |labels|
    ensures forall l :: l in labels ==> l in BootstrapLabels(n, labels)
  {
    var r := BootstrapLabels(n, labels);
    BootstrapLabelsPrefix(n, labels);
    forall l | l in labels
      ensures l in r
    {
      var j :| 0 <= j < |labels| && labels[j] == l;
      assert r[j] == labels[j];
    }
  }

  /** A nonzero multiple of `k` is at least `k` away from zero. */
  lemma {:induction false} MulSign(k: nat, d: int)
    ensures d >= 1 ==> k * d >= k
    ensures d <= -1 ==> k * d <= -(k as int)
    decreases if d < 0 then -d else d
  {
    if d > 1 {
      MulSign(k, d - 1);
      assert k * d == k * (d - 1) + k;
    } else if d < -1 {
      MulSign(k, d + 1);
      assert k * d == k * (d + 1) - k;
    }
  }

  lemma ModPeriod(i: nat, k: nat)
    requires k > 0
    ensures (i + k) % k == i % k
  {
    var x, y := (i + k) / k, i / k;
    var r1, r2 := (i + k) % k, i % k;
    assert i + k == k * x + r1;
    assert i == k * y + r2;
    assert k * (x - y - 1) == k * x - k * y - k;
    MulSign(k, x - y - 1);
  }

  /** The texts of the hits, in hit order: what the bootstrap trains on. */
  function HitTexts(hits: seq<Meta>): (r: seq<Value>)
    requires HitsHaveText(hits)
    ensures |r| == |hits|
  {
    seq(|hits|, i requires 0 <= i < |hits| => hits[i]["text"])
  }

  /** `" ".join(hit["text"] for hit in hits[:3])`: None when one of those texts is not a string. */
  function ClassifierInput(hits: seq<Meta>): (r: Option<string>)
    requires HitsHaveText(hits)
    ensures var top := if |hits| < 3 then |hits| else 3;
      r.Some? <==> forall i :: 0 <= i < top ==> hits[i]["text"].Str?
    ensures r.Some? && |hits| >= 1 && hits[0]["text"].s != "" ==> r.value != ""
  {
    var top := hits[..if |hits| < 3 then |hits| else 3];
    if forall i :: 0 <= i < |top| ==> top[i]["text"].Str? then
      var texts := seq(|top|, i requires 0 <= i < |top| && top[i]["text"].Str? => top[i]["text"].s);
      Some(Strings.Join(" ", texts))
    else None
  }

  /** The classifier reads the first three texts, separated by single spaces. */
  lemma ClassifierInputLayout(hits: seq<Meta>)
    requires HitsHaveText(hits)
    requires forall i :: 0 <= i < |hits| && i < 3 ==> hits[i]["text"].Str?
    ensures ClassifierInput(hits).Some?
    ensures |hits| == 0 ==> ClassifierInput(hits).value == ""
    ensures |hits| == 1 ==> ClassifierInput(hits).value == hits[0]["text"].s
    ensures |hits| == 2 ==> ClassifierInput(hits).value == hits[0]["text"].s + " " + hits[1]["text"].s
    ensures |hits| >= 3 ==>
      ClassifierInput(hits).value == hits[0]["text"].s + " " + (hits[1]["text"].s + " " + hits[2]["text"].s)
  {
    var top: seq<Meta> := hits[..if |hits| < 3 then |hits| else 3];
    var texts := seq(|top|, i requires 0 <= i < |top| && top[i]["text"].Str? => top[i]["text"].s);
    assert ClassifierInput(hits).value == Strings.Join(" ", texts);
    if |texts| == 2 {
      assert Strings.Join(" ", texts) == texts[0] + " " + Strings.Join(" ", texts[1..]);
      assert Strings.Join(" ", texts[1..]) == texts[1];
    } else if |texts| == 3 {
      assert Strings.Join(" ", texts) == texts[0] + " " + Strings.Join(" ", texts[1..]);
      assert texts[1..][1..] == [texts[2]];
      assert Strings.Join(" ", texts[1..]) == texts[1] + " " + texts[2];
    }
  }

  /** The context entry for one hit; `text` defaults to "". */
  function ContextOf(hit: Meta): (r: Result<ContextHit, ValidationError>)
    ensures r.Ok? <==> GetOr(hit, "text", Str("")) != Null
    ensures r.Ok? ==> r.value.text == GetOr(hit, "text", Str(""))
    ensures r.Ok? ==> r.value.docId == Get(hit, "doc_id") && r.value.source == Get(hit, "source")
    ensures r.Ok? ==> r.value.score == Get(hit, "score") && r.value.page == Get(hit, "page")
    ensures r.Ok? ==> r.value.section == Get(hit, "section") && r.value.sectionChunk == Get(hit, "section_chunk")
  {
    NewContextHit(map[
      "doc_id" := Get(hit, "doc_id"), "source" := Get(hit, "source"),
      "text" := GetOr(hit, "text", Str("")), "score" := Get(hit, "score"),
      "page" := Get(hit, "page"), "section" := Get(hit, "section"),
      "section_chunk" := Get(hit, "section_chunk")])
  }

  predicate ContextValid(hits: seq<Meta>)
  {
    forall i :: 0 <= i < |hits| ==> ContextOf(hits[i]).Ok?
  }

  /** One context entry per hit, in hit order. */
  function Context(hits: seq<Meta>): (r: seq<ContextHit>)
    requires ContextValid(hits)
    ensures |r| == |hits|
    ensures forall i :: 0 <= i < |hits| ==>
      r[i].text == GetOr(hits[i], "text", Str("")) && r[i].docId == Get(hits[i], "doc_id")
      && r[i].source == Get(hits[i], "source") && r[i].score == Get(hits[i], "score")
      && r[i].page == Get(hits[i], "page") && r[i].section == Get(hits[i], "section")
      && r[i].sectionChunk == Get(hits[i], "section_chunk")
    ensures forall i :: 0 <= i < |hits| ==> r[i] == ContextOf(hits[i]).value
  {
    seq(|hits|, i requires 0 <= i < |hits| => ContextOf(hits[i]).value)
  }

  /**
   * The part of `ask_ai` after the search. `saved` is the stored classifier model, if any;
   * with none, one is trained on the hit texts and cyclic pseudo-labels from `labels` and
   * stored. Exceptions raised on the way (no labels to cycle, a text that cannot be joined,
   * a context entry without text) become a 500, keeping any model already stored.
   */
  function Respond<M>(req: ChatRequest, hits: seq<Meta>, qa: (string, seq<Meta>, bool) -> QaResult,
                      saved: Option<M>, labels: seq<string>,
                      fit: (seq<Value>, seq<string>) -> M, predict: (string, M) -> Prediction)
    : (out: AskOutcome<M>)
    requires HitsHaveText(hits)
    ensures hits == [] ==> out == AskOutcome(Ok(NoResults), saved)
    ensures hits != [] && saved.Some? ==> out.model == saved
    ensures hits != [] && saved.None? && |labels| == 0 ==> out == AskOutcome(Err(InternalError), None)
    ensures hits != [] && saved.None? && |labels| > 0 ==>
      out.model == Some(fit(HitTexts(hits), BootstrapLabels(|hits|, labels)))
    ensures hits != [] ==>
      (out.response.Ok? <==> (saved.Some? || |labels| > 0) && ClassifierInput(hits).Some? && ContextValid(hits))
    ensures out.response.Err? ==> out.response.error == InternalError
    ensures hits != [] && out.response.Ok? ==>
      var resp := out.response.value;
      && resp.answer == qa(req.question, hits, req.useLlm).answer
      && resp.mode == qa(req.question, hits, req.useLlm).mode
      && ContextValid(hits) && resp.context == Context(hits)
      && out.model.Some?
      && resp.classification == Some(ClassificationInfo(
           predict(ClassifierInput(hits).value, out.model.value).labelName,
           predict(ClassifierInput(hits).value, out.model.value).proba))
  {
    if hits == [] then AskOutcome(Ok(NoResults), saved)
    else
      var result := qa(req.question, hits, req.useLlm);
      if saved.None? && |labels| == 0 then AskOutcome(Err(InternalError), saved)
      else
        var model := if saved.Some? then saved.value else fit(HitTexts(hits), BootstrapLabels(|hits|, labels));
        match ClassifierInput(hits)
        case None => AskOutcome(Err(InternalError), Some(model))
        case Some(input) =>
          var pred := predict(input, model);
          if !ContextValid(hits) then AskOutcome(Err(InternalError), Some(model))
          else
            var info := ClassificationInfo(pred.labelName, pred.proba);
            AskOutcome(Ok(ChatResponse(result.answer, result.mode, Context(hits), Some(info))), Some(model))
  }

  /** `ask_ai`: refuses when the knowledge base is empty, else searches and responds. */
  method AskAi<M>(store: KnowledgeStore, req: ChatRequest, qa: (string, seq<Meta>, bool) -> QaResult,
                  saved: Option<M>, labels: seq<string>,
                  fit: (seq<Value>, seq<string>) -> M, predict: (string, M) -> Prediction)
    returns (out: AskOutcome<M>, ghost hits: seq<Meta>, ghost raw: seq<RawHit>, ghost picks: seq<nat>)
    requires store.Valid() && ValidChatRequest(req)
    modifies store.Repr
    ensures store.Valid() && fresh(store.Repr - old(store.Repr))
    ensures store.Records() == old(store.Records()) && store.Persisted() == old(store.Persisted())
    ensures store.index != null && (old(store.index) != null ==> store.index == old(store.index))
    ensures store.warnings == old(store.warnings) + (if old(store.index) == null then store.LoadWarnings() else [])
    ensures old(store.Records()) == [] ==> out == AskOutcome(Err(EmptyKnowledgeBase), saved) && hits == []
    ensures old(store.Records()) != [] ==>
      && |raw| == |picks| == (if req.topK < |store.Records()| then req.topK else |store.Records()|)
      && Distinct(picks)
      && (forall i :: 0 <= i < |picks| ==>
            picks[i] < |store.Records()| && raw[i].meta == Returned(store.Records()[picks[i]]))
      && |hits| == |raw| && (forall i :: 0 <= i < |hits| ==> hits[i] == Enrich(raw[i]))
      && HitsHaveText(hits)
      && out == Respond(req, hits, qa, saved, labels, fit, predict)
    ensures old(store.Records()) != [] ==> hits != []
    ensures old(store.Records()) != [] && (saved.Some? || |labels| > 0) ==> out.response.Ok?
  {
    var empty := store.IsEmpty();
    if empty {
      return AskOutcome(Err(EmptyKnowledgeBase), saved), [], [], [];
    }
    var found;
    found, raw, picks := store.Search(req.question, req.topK);
    hits := found;
    assert forall i :: 0 <= i < |hits| ==> hits[i]["text"].Str?;
    out := Respond(req, found, qa, saved, labels, fit, predict);
  }
}

=== FILE: knowledge.dfy ===
/**
 * The knowledge store: one lazily built vector index, fed with document chunks and
 * queried for hits. The vector index itself (embedding, similarity, ranking) is an
 * abstract collaborator here: a class holding its records, whose search returns k
 * distinct records (all of them when there are fewer), each as its metadata with its
 * text, with opaque scores.
 */
module Knowledge {
  import opened Wrappers
  import opened Values

  /** A chunk as the chunker produces it: its document, its text and its positional metadata. */
  datatype Chunk = Chunk(docId: string, text: string, meta: Meta)

  /** One entry of the vector index: the embedded text and its metadata. */
  datatype Record = Record(text: string, meta: Meta)

  /** One result of the vector index's search: a similarity score and the record's metadata. */
  datatype RawHit = RawHit(score: Float, meta: Meta)

  /** What the index directory holds: nothing, something unreadable, or a saved index. */
  datatype StoredIndex = Missing | Corrupt(reason: string) | Saved(records: seq<Record>)

  /** The records an index holds after loading `stored`: a missing or corrupt store gives an empty index. */
  function Initial(stored: StoredIndex): seq<Record>
  {
    if stored.Saved? then stored.records else []
  }

  /**
   * The metadata the index hands back for a record: the record's metadata with the
   * embedded text under "text", so that a hit can always show the text it matched.
   */
  function Returned(rec: Record): (m: Meta)
    ensures m.Keys == rec.meta.Keys + {"text"}
    ensures m["text"] == Str(rec.text)
    ensures forall key :: key in rec.meta && key != "text" ==> m[key] == rec.meta[key]
  {
    rec.meta["text" := Str(rec.text)]
  }

  function Zip(texts: seq<string>, metas: seq<Meta>): (r: seq<Record>)
    requires |texts| == |metas|
    ensures |r| == |texts|
  {
    seq(|texts|, i requires 0 <= i < |texts| => Record(texts[i], metas[i]))
  }

  predicate Distinct(s: seq<nat>)
  {
    forall i, j :: 0 <= i < j < |s| ==> s[i] != s[j]
  }

  /** Distinct positions below n are at most n in number. */
  lemma {:induction false} DistinctBelow(s: seq<nat>, n: nat)
    requires Distinct(s)
    requires forall i :: 0 <= i < |s| ==> s[i] < n
    ensures |s| <= n
  {
    if s != [] {
      assert s[0] < n;
      if j :| 0 <= j < |s| && s[j] == n - 1 {
        var rest := s[..j] + s[j + 1..];
        assert forall i :: 0 <= i < |rest| ==> rest[i] == (if i < j then s[i] else s[i + 1]);
        forall i | 0 <= i < |rest|
          ensures rest[i] < n - 1
        {
          if i < j { assert s[i] != s[j]; } else { assert s[i + 1] != s[j]; }
        }
        forall i, i' | 0 <= i < i' < |rest|
          ensures rest[i] != rest[i']
        {
          var a := if i < j then i else i + 1;
          var b := if i' < j then i' else i' + 1;
          assert a < b && rest[i] == s[a] && rest[i'] == s[b];
        }
        DistinctBelow(rest, n - 1);
      } else {
        forall i | 0 <= i < |s|
          ensures s[i] < n - 1
        {
          assert s[i] != n - 1;
        }
        DistinctBelow(s, n - 1);
      }
    }
  }

  /** The vector index. Embedding and similarity ranking are not modelled. */
  class VectorIndex {
    const dim: int
    const storageDir: string
    /** The records held in memory, in insertion order. */
    var records: seq<Record>
    /** What the storage directory holds. */
    var disk: StoredIndex

    constructor (dim: int, storageDir: string, disk: StoredIndex)
      ensures this.dim == dim && this.storageDir == storageDir && this.disk == disk
      ensures records == []
    {
      this.dim := dim;
      this.storageDir := storageDir;
      this.disk := disk;
      records := [];
    }

    /** Reads the storage directory; a corrupt store raises and leaves the records as they were. */
    method Load() returns (failure: Option<string>)
      modifies this
      ensures disk == old(disk)
      ensures failure == (if disk.Corrupt? then Some(disk.reason) else None)
      ensures records == (if disk.Saved? then disk.records else old(records))
    {
      match disk
      case Saved(saved) =>
        records := saved;
        failure := None;
      case Missing =>
        failure := None;
      case Corrupt(reason) =>
        failure := Some(reason);
    }

    /** Appends one record per text, all at once. */
    method AddTexts(texts: seq<string>, metas: seq<Meta>)
      requires |texts| == |metas|
      modifies this
      ensures records == old(records) + Zip(texts, metas)
      ensures disk == old(disk)
    {
      records := records + Zip(texts, metas);
    }

    /** Writes the in-memory records to the storage directory. */
    method Save()
      modifies this
      ensures records == old(records)
      ensures disk == Saved(records)
    {
      disk := Saved(records);
    }

    /**
     * Returns the hits for `query`: k distinct records, or all of them when the index holds
     * fewer, each with a score. Which records and which scores is the embedding's business and is left open;
     * `picks` names the positions of the chosen records.
     */
    method Search(query: string, k: nat) returns (raw: seq<RawHit>, ghost picks: seq<nat>)
      ensures |raw| == |picks| == (if k < |records| then k else |records|)
      ensures Distinct(picks)
      ensures forall i :: 0 <= i < |picks| ==> picks[i] < |records| && raw[i].meta == Returned(records[picks[i]])
    {
      var m := if k < |records| then k else |records|;
      var first: seq<nat> := seq(m, i requires 0 <= i < m => i);
      assert Distinct(first) && forall i :: 0 <= i < m ==> first[i] < |records|;
      var chosen: seq<nat> :| |chosen| == m && Distinct(chosen)
        && forall i :: 0 <= i < |chosen| ==> chosen[i] < |records|;
      var zero := Float(0.0, "0.0");
      assert |seq(|chosen|, _ => zero)| == |chosen|;
      var scores: seq<Float> :| |scores| == |chosen|;
      var held := records;
      raw := seq(|chosen|, i requires 0 <= i < |chosen| => RawHit(scores[i], Returned(held[chosen[i]])));
      picks := chosen;
    }

    method IsEmpty() returns (empty: bool)
      ensures empty <==> records == []
    {
      empty := |records| == 0;
    }
  }

  /**
   * The metadata recorded for a chunk at 1-based `position`: the chunk's own metadata,
   * with `doc_id` and `chunk_index` set over whatever it held under those keys.
   */
  function ChunkMeta(c: Chunk, position: nat): (m: Meta)
    ensures m.Keys == c.meta.Keys + {"doc_id", "chunk_index"}
    ensures m["doc_id"] == Str(c.docId) && m["chunk_index"] == Int(position)
    ensures forall key :: key in c.meta && key != "doc_id" && key != "chunk_index" ==> m[key] == c.meta[key]
  {
    c.meta["doc_id" := Str(c.docId)]["chunk_index" := Int(position)]
  }

  /** The records that ingesting `chunks` appends to the index, in chunk order. */
  function ChunkRecords(chunks: seq<Chunk>): (r: seq<Record>)
    ensures |r| == |chunks|
    ensures forall i :: 0 <= i < |r| ==> r[i].text == chunks[i].text
    ensures forall i :: 0 <= i < |r| ==> "doc_id" in r[i].meta && r[i].meta["doc_id"] == Str(chunks[i].docId)
    ensures forall i :: 0 <= i < |r| ==> "chunk_index" in r[i].meta && r[i].meta["chunk_index"] == Int(i + 1)
  {
    seq(|chunks|, i requires 0 <= i < |chunks| => Record(chunks[i].text, ChunkMeta(chunks[i], i + 1)))
  }

  /**
   * The loop of `add_file`: one text and one metadata record per chunk, the metadata
   * numbered by how many records precede it.
   */
  method BuildRecords(chunks: seq<Chunk>) returns (texts: seq<string>, metas: seq<Meta>)
    ensures |texts| == |chunks| && |metas| == |chunks|
    ensures forall i :: 0 <= i < |chunks| ==> texts[i] == chunks[i].text
    ensures forall i :: 0 <= i < |chunks| ==> metas[i] == ChunkMeta(chunks[i], i + 1)
  {
    texts, metas := [], [];
    for i := 0 to |chunks|
      invariant |texts| == i && |metas| == i
      invariant forall j :: 0 <= j < i ==> texts[j] == chunks[j].text
      invariant forall j :: 0 <= j < i ==> metas[j] == ChunkMeta(chunks[j], j + 1)
    {
      var chunk := chunks[i];
      var meta := chunk.meta;
      meta := meta["doc_id" := Str(chunk.docId)];
      meta := meta["chunk_index" := Int(|metas| + 1)];
      texts := texts + [chunk.text];
      metas := metas + [meta];
    }
  }

  /**
   * A hit record: the raw hit's metadata, with `text` defaulting to "" when the metadata
   * has none, and `score` set to the raw score over any stored score.
   */
  function Enrich(h: RawHit): (r: Meta)
    ensures r.Keys == h.meta.Keys + {"text", "score"}
    ensures r["score"] == Num(h.score)
    ensures "text" !in h.meta ==> r["text"] == Str("")
    ensures forall key :: key in h.meta && key != "score" ==> r[key] == h.meta[key]
  {
    var withText := if "text" in h.meta then h.meta else h.meta["text" := Str("")];
    withText["score" := Num(h.score)]
  }

  /** The loop of `search`: one hit record per raw hit, in the same order. */
  method EnrichHits(raw: seq<RawHit>) returns (hits: seq<Meta>)
    ensures |hits| == |raw|
    ensures forall i :: 0 <= i < |raw| ==> hits[i] == Enrich(raw[i])
  {
    hits := [];
    for i := 0 to |raw|
      invariant |hits| == i
      invariant forall j :: 0 <= j < i ==> hits[j] == Enrich(raw[j])
    {
      var record := raw[i].meta;
      if "text" !in record {
        record := record["text" := GetOr(raw[i].meta, "text", Str(""))];
      }
      record := record["score" := Num(raw[i].score)];
      hits := hits + [record];
    }
  }

  /**
   * The store. The index is built on first use from what the index directory held when the
   * store was created (`stored`); a load failure is logged to `warnings` and otherwise ignored.
   */
  class KnowledgeStore {
    const indexDir: string
    const uploadsDir: string
    const dim: int
    /** The content of the index directory when the store was created. */
    const stored: StoredIndex
    var index: VectorIndex?
    /** The log of load failures. */
    var warnings: seq<string>
    ghost var Repr: set<object>

    ghost predicate Valid()
      reads this, Repr
      ensures Valid() ==> this in Repr
    {
      this in Repr &&
      (index != null ==> index in Repr && index.dim == dim && index.storageDir == indexDir)
    }

    /** The knowledge base: what the index holds, or will hold once built. */
    ghost function Records(): seq<Record>
      reads this, Repr
      requires Valid()
    {
      if index == null then Initial(stored) else index.records
    }

    /** What the index directory holds now. */
    ghost function Persisted(): StoredIndex
      reads this, Repr
      requires Valid()
    {
      if index == null then stored else index.disk
    }

    constructor (indexDir: string, uploadsDir: string, stored: StoredIndex, dim: int := 384)
      ensures Valid() && fresh(Repr)
      ensures this.indexDir == indexDir && this.uploadsDir == uploadsDir
      ensures this.stored == stored && this.dim == dim
      ensures index == null && warnings == []
      ensures Records() == Initial(stored) && Persisted() == stored
    {
      this.indexDir := indexDir;
      this.uploadsDir := uploadsDir;
      this.stored := stored;
      this.dim := dim;
      index := null;
      warnings := [];
      Repr := {this};
    }

    /** Builds the index on first use, loading the stored one; later calls return the same index. */
    method EnsureIndex() returns (idx: VectorIndex)
      requires Valid()
      modifies Repr
      ensures Valid() && fresh(Repr - old(Repr))
      ensures index == idx && idx in Repr
      ensures old(index) != null ==> idx == old(index) && unchanged(idx) && warnings == old(warnings)
      ensures old(index) == null ==> fresh(idx)
      ensures old(index) == null ==> warnings == old(warnings) + LoadWarnings()
      ensures Records() == old(Records()) && Persisted() == old(Persisted())
    {
      if index == null {
        var built := new VectorIndex(dim, indexDir, stored);
        var failure := built.Load();
        if failure.Some? {
          warnings := warnings + ["Failed to load index: " + failure.value];
        }
        index := built;
        Repr := Repr + {built};
      }
      idx := index;
    }

    /** What building the index logs: the load failure of a corrupt store, if any. */
    function LoadWarnings(): (w: seq<string>)
      ensures |w| <= 1
      ensures w != [] <==> stored.Corrupt?
    {
      if stored.Corrupt? then ["Failed to load index: " + stored.reason] else []
    }

    /**
     * Compared with a state whose index was `index0` and whose log was `log0`: an index
     * built then is still the same object, and the log has gained at most the load warning
     * of building the index since.
     */
    ghost predicate KeptSince(index0: VectorIndex?, log0: seq<string>)
      reads this
    {
      (index0 != null ==> index == index0)
      && warnings == log0 + (if index0 == null && index != null then LoadWarnings() else [])
    }

    /**
     * Compared with a state whose index directory held `persisted0`, after `added` records
     * were ingested since: nothing added leaves the directory as it was, anything added
     * means the directory holds the current records.
     */
    ghost predicate SavedSince(persisted0: StoredIndex, added: seq<Record>)
      reads this, Repr
      requires Valid()
    {
      Persisted() == if added == [] then persisted0 else Saved(Records())
    }

    /**
     * Ingests the file: its chunks become index records, appended and saved together.
     * A file without chunks leaves everything as it was, the index not even built.
     */
    method AddFile(filePath: string, docId: string, chunker: (string, string) -> seq<Chunk>) returns (n: nat)
      requires Valid()
      modifies Repr
      ensures Valid() && fresh(Repr - old(Repr))
      ensures n == |chunker(filePath, docId)|
      ensures n == 0 ==> Repr == old(Repr) && unchanged(Repr)
      ensures n > 0 ==> Records() == old(Records()) + ChunkRecords(chunker(filePath, docId))
      ensures n > 0 ==> Persisted() == Saved(Records())
      ensures n > 0 && old(index) != null ==> index == old(index) && warnings == old(warnings)
      ensures n > 0 && old(index) == null ==> index != null && warnings == old(warnings) + LoadWarnings()
    {
      var chunks := chunker(filePath, docId);
      if |chunks| == 0 {
        return 0;
      }
      var texts, metas := BuildRecords(chunks);
      assert Zip(texts, metas) == ChunkRecords(chunks);
      var idx := EnsureIndex();
      idx.AddTexts(texts, metas);
      idx.Save();
      n := |texts|;
    }

    /** Searches the index; every hit carries `text` and `score`. */
    method Search(query: string, k: nat) returns (hits: seq<Meta>, ghost raw: seq<RawHit>, ghost picks: seq<nat>)
      requires Valid()
      modifies Repr
      ensures Valid() && fresh(Repr - old(Repr))
      ensures Records() == old(Records()) && Persisted() == old(Persisted())
      ensures old(index) != null ==> index == old(index) && warnings == old(warnings)
      ensures old(index) == null ==> index != null && warnings == old(warnings) + LoadWarnings()
      ensures |raw| == |picks| == (if k < |Records()| then k else |Records()|) && Distinct(picks)
      ensures forall i :: 0 <= i < |picks| ==> picks[i] < |Records()| && raw[i].meta == Returned(Records()[picks[i]])
      ensures |hits| == |raw| && forall i :: 0 <= i < |hits| ==> hits[i] == Enrich(raw[i])
      ensures forall i :: 0 <= i < |hits| ==> "score" in hits[i] && hits[i]["score"] == Num(raw[i].score)
      ensures forall i :: 0 <= i < |hits| ==> "text" in hits[i] && hits[i]["text"] == Str(Records()[picks[i]].text)
    {
      var idx := EnsureIndex();
      var found;
      found, picks := idx.Search(query, k);
      hits := EnrichHits(found);
      raw := found;
    }

    method IsEmpty() returns (empty: bool)
      requires Valid()
      modifies Repr
      ensures Valid() && fresh(Repr - old(Repr))
      ensures Records() == old(Records()) && Persisted() == old(Persisted())
      ensures old(index) != null ==> index == old(index) && warnings == old(warnings)
      ensures old(index) == null ==> index != null && warnings == old(warnings) + LoadWarnings()
      ensures empty <==> Records() == []
    {
      var idx := EnsureIndex();
      empty := idx.IsEmpty();
    }
  }
}

=== FILE: report.dfy ===
/**
 * The markdown report of a question, its answer and the hits it was drawn from.
 * The generation time and the three-decimal rendering of a score are inputs: the
 * clock and float formatting are not modelled.
 */
module Report {
  import opened Values
  import Strings

  const Title := "# Rekomendasi Kebijakan - Laporan"
  const QuestionHeader := "## Pertanyaan"
  const AnswerHeader := "## Jawaban/Analisis"
  const ReferencesHeader := "## Referensi Konteks"
  const RecommendationHeader := "## Rekomendasi Sistem"
  const SnippetLimit: nat := 800

  /** The location parts of a hit, in order: page, section, sub-chunk, each only when truthy. */
  function LocationParts(hit: Meta): seq<string>
  {
    (if Truthy(Get(hit, "page")) then ["hal. " + Render(Get(hit, "page"))] else [])
    + (if Truthy(Get(hit, "section")) then ["paragraf " + Render(Get(hit, "section"))] else [])
    + (if Truthy(Get(hit, "section_chunk")) then ["bagian " + Render(Get(hit, "section_chunk"))] else [])
  }

  /** Where in its document a hit lies, e.g. "hal. 3, bagian 2"; "" when nothing is known. */
  function FormatLocation(hit: Meta): (r: string)
    ensures r == "" <==>
      !Truthy(Get(hit, "page")) && !Truthy(Get(hit, "section")) && !Truthy(Get(hit, "section_chunk"))
  {
    Strings.Join(", ", LocationParts(hit))
  }

  /**
   * The location for each of the eight combinations of present fields: only the truthy
   * ones appear, in the order page, section, sub-chunk, separated by ", ".
   */
  lemma LocationOrder(hit: Meta)
    ensures var p, s, c := Get(hit, "page"), Get(hit, "section"), Get(hit, "section_chunk");
      var page, section, sub := "hal. " + Render(p), "paragraf " + Render(s), "bagian " + Render(c);
      var loc := FormatLocation(hit);
      && (!Truthy(p) && !Truthy(s) && !Truthy(c) ==> loc == "")
      && (Truthy(p) && !Truthy(s) && !Truthy(c) ==> loc == page)
      && (!Truthy(p) && Truthy(s) && !Truthy(c) ==> loc == section)
      && (!Truthy(p) && !Truthy(s) && Truthy(c) ==> loc == sub)
      && (Truthy(p) && Truthy(s) && !Truthy(c) ==> loc == page + ", " + section)
      && (Truthy(p) && !Truthy(s) && Truthy(c) ==> loc == page + ", " + sub)
      && (!Truthy(p) && Truthy(s) && Truthy(c) ==> loc == section + ", " + sub)
      && (Truthy(p) && Truthy(s) && Truthy(c) ==> loc == page + ", " + section + ", " + sub)
  {
    Strings.JoinSmall(", ", LocationParts(hit));
  }

  /**
   * A falsy page, section or sub-chunk (0, 0.0, "", None or False) counts as absent:
   * the location is the same as without that key.
   */
  lemma ZeroIsAbsent(hit: Meta, key: string)
    requires key == "page" || key == "section" || key == "section_chunk"
    requires !Truthy(Get(hit, key))
    ensures FormatLocation(hit) == FormatLocation(hit - {key})
  {
    assert LocationParts(hit) == LocationParts(hit - {key});
  }

  /** The note after a reference's source: the location in parentheses, or nothing. */
  function LocationNote(hit: Meta): (r: string)
    ensures r == "" <==>
      !Truthy(Get(hit, "page")) && !Truthy(Get(hit, "section")) && !Truthy(Get(hit, "section_chunk"))
    ensures r != "" ==>
      |r| >= 3 && r[..2] == " (" && r[|r| - 1] == ')' && r[2..|r| - 1] == FormatLocation(hit)
  {
    var location := FormatLocation(hit);
    if location != "" then " (" + location + ")" else ""
  }

  /** The source shown for a hit: `source`, else `doc_id`, else "-"; never a falsy value. */
  function SourceOf(hit: Meta): (r: Value)
    ensures Truthy(r)
    ensures Truthy(Get(hit, "source")) ==> r == hit["source"]
    ensures !Truthy(Get(hit, "source")) && Truthy(Get(hit, "doc_id")) ==> r == hit["doc_id"]
    ensures !Truthy(Get(hit, "source")) && !Truthy(Get(hit, "doc_id")) ==> r == Str("-")
  {
    if Truthy(Get(hit, "source")) then Get(hit, "source")
    else if Truthy(Get(hit, "doc_id")) then Get(hit, "doc_id")
    else Str("-")
  }

  const ZeroScore := Num(Float(0.0, "0.0"))

  /** A hit's text is a string wherever it is present; slicing anything else raises. */
  predicate TextIsString(hit: Meta)
  {
    "text" in hit ==> hit["text"].Str?
  }

  predicate TextsAreStrings(hits: seq<Meta>)
  {
    forall i :: 0 <= i < |hits| ==> TextIsString(hits[i])
  }

  function TextOf(hit: Meta): string
    requires TextIsString(hit)
  {
    if "text" in hit then hit["text"].s else ""
  }

  /** `text[:800]`: the text itself when short enough, else its first 800 characters. */
  function Snippet(text: string): (r: string)
    ensures |r| <= 800
    ensures |text| <= 800 ==> r == text
    ensures |text| > 800 ==> |r| == 800
    ensures r == text[..|r|]
  {
    if |text| <= SnippetLimit then text else text[..SnippetLimit]
  }

  /** The reference line for the i-th hit (1-based). */
  function ReferenceLine(i: int, hit: Meta, formatScore: Value -> string): string
  {
    Strings.DecimalString(i) + ". " + ReferenceEntry(hit, formatScore)
  }

  /** What follows the number: the source in bold, the location note, the score. */
  function ReferenceEntry(hit: Meta, formatScore: Value -> string): string
  {
    "**" + Render(SourceOf(hit)) + "**" + LocationNote(hit) + " - skor: " + formatScore(GetOr(hit, "score", ZeroScore))
  }

  /** A reference line opens with its number written in decimal, then ". ". */
  lemma ReferenceLineNumber(i: nat, hit: Meta, formatScore: Value -> string)
    ensures var line, d := ReferenceLine(i, hit, formatScore), Strings.DecimalString(i);
      && |d| + 2 <= |line| && line[..|d|] == d && line[|d|] == '.' && line[|d| + 1] == ' '
      && Strings.ParseDecimal(d) == i
  {
    var d := Strings.DecimalString(i);
    var line := ReferenceLine(i, hit, formatScore);
    assert line == d + ". " + ReferenceEntry(hit, formatScore);
    assert line[|d|] == (d + ". ")[|d|];
    assert line[|d| + 1] == (d + ". ")[|d| + 1];
    Strings.DecimalRoundTrip(i);
  }

  /** Hits with different numbers never get the same reference line. */
  lemma ReferenceLinesDistinct(i: nat, j: nat, a: Meta, b: Meta, formatScore: Value -> string)
    requires i != j
    ensures ReferenceLine(i, a, formatScore) != ReferenceLine(j, b, formatScore)
  {
    var di, dj := Strings.DecimalString(i), Strings.DecimalString(j);
    var li, lj := ReferenceLine(i, a, formatScore), ReferenceLine(j, b, formatScore);
    ReferenceLineNumber(i, a, formatScore);
    ReferenceLineNumber(j, b, formatScore);
    if |di| == |dj| {
      Strings.DecimalInjective(i, j);
      assert li[..|di|] != lj[..|dj|];
    } else if |di| < |dj| {
      assert li[|di|] == '.' && Strings.IsDigit(lj[|di|]);
    } else {
      assert lj[|dj|] == '.' && Strings.IsDigit(li[|dj|]);
    }
  }

  function SnippetLine(hit: Meta): string
    requires TextIsString(hit)
  {
    "   > " + Snippet(TextOf(hit))
  }

  /** The lines before the references. */
  function Header(timestamp: string, query: string, answer: string): seq<string>
  {
    [Title, "_Generated: " + timestamp + "_", "",
     QuestionHeader, query, "",
     AnswerHeader, answer, "",
     ReferencesHeader]
  }

  /** Two lines per hit, numbered from 1 in hit order. */
  function References(hits: seq<Meta>, formatScore: Value -> string): seq<string>
    requires TextsAreStrings(hits)
  {
    if hits == [] then []
    else
      var last := hits[|hits| - 1];
      References(hits[..|hits| - 1], formatScore)
      + [ReferenceLine(|hits|, last, formatScore), SnippetLine(last)]
  }

  function Recommendation(rec: string): seq<string>
  {
    if rec != "" then ["", RecommendationHeader, rec] else []
  }

  /** The lines of the report, before they are joined with newlines. */
  function ReportLines(query: string, answer: string, hits: seq<Meta>, rec: string,
                       timestamp: string, formatScore: Value -> string): seq<string>
    requires TextsAreStrings(hits)
  {
    Header(timestamp, query, answer) + References(hits, formatScore) + Recommendation(rec)
  }

  lemma {:induction false} ReferencesAt(hits: seq<Meta>, formatScore: Value -> string, i: nat)
    requires TextsAreStrings(hits)
    requires i < |hits|
    ensures |References(hits, formatScore)| == 2 * |hits|
    ensures References(hits, formatScore)[2 * i] == ReferenceLine(i + 1, hits[i], formatScore)
    ensures References(hits, formatScore)[2 * i + 1] == SnippetLine(hits[i])
  {
    var init := hits[..|hits| - 1];
    assert forall h <- init :: TextIsString(h) by {
      forall h | h in init ensures TextIsString(h) { assert h in hits; }
    }
    if i < |hits| - 1 {
      ReferencesAt(init, formatScore, i);
      assert init[i] == hits[i];
    } else if |hits| > 1 {
      ReferencesAt(init, formatScore, 0);
    }
  }

  lemma {:induction false} ReferencesLength(hits: seq<Meta>, formatScore: Value -> string)
    requires TextsAreStrings(hits)
    ensures |References(hits, formatScore)| == 2 * |hits|
  {
    if hits != [] {
      ReferencesLength(hits[..|hits| - 1], formatScore);
    }
  }

  /** Where the three pieces of a concatenation land. */
  lemma ConcatLayout(a: seq<string>, b: seq<string>, c: seq<string>)
    ensures (a + b + c)[..|a|] == a
    ensures forall k :: 0 <= k < |b| ==> (a + b + c)[|a| + k] == b[k]
    ensures (a + b + c)[|a| + |b|..] == c
  {
  }

  /** The header: title, generation time, question, answer, then the references heading. */
  lemma HeaderLayout(timestamp: string, query: string, answer: string)
    ensures var h := Header(timestamp, query, answer);
      && |h| == 10
      && h[0] == Title && h[1] == "_Generated: " + timestamp + "_"
      && h[3] == QuestionHeader && h[4] == query
      && h[6] == AnswerHeader && h[7] == answer
      && h[9] == ReferencesHeader
      && h[2] == h[5] == h[8] == ""
  {
  }

  /**
   * The layout of the report: the fixed headers, then one reference line and one snippet
   * line per hit in hit order, then the recommendation section exactly when `rec` is not "".
   */
  lemma ReportLayout(query: string, answer: string, hits: seq<Meta>, rec: string,
                     timestamp: string, formatScore: Value -> string)
    requires TextsAreStrings(hits)
    ensures |ReportLines(query, answer, hits, rec, timestamp, formatScore)|
            == 10 + 2 * |hits| + (if rec != "" then 3 else 0)
    ensures ReportLines(query, answer, hits, rec, timestamp, formatScore)[..10]
            == Header(timestamp, query, answer)
    ensures forall i :: 0 <= i < |hits| ==>
      ReportLines(query, answer, hits, rec, timestamp, formatScore)[10 + 2 * i]
        == ReferenceLine(i + 1, hits[i], formatScore)
    ensures forall i :: 0 <= i < |hits| ==>
      ReportLines(query, answer, hits, rec, timestamp, formatScore)[11 + 2 * i] == SnippetLine(hits[i])
    ensures ReportLines(query, answer, hits, rec, timestamp, formatScore)[10 + 2 * |hits|..]
            == Recommendation(rec)
  {
    var head := Header(timestamp, query, answer);
    var refs := References(hits, formatScore);
    var tail := Recommendation(rec);
    HeaderLayout(timestamp, query, answer);
    ReferencesLength(hits, formatScore);
    ConcatLayout(head, refs, tail);
    forall i | 0 <= i < |hits|
      ensures refs[2 * i] == ReferenceLine(i + 1, hits[i], formatScore)
      ensures refs[2 * i + 1] == SnippetLine(hits[i])
    {
      ReferencesAt(hits, formatScore, i);
    }
  }

  /** The references of one more hit are those of the hits before it, then its two lines. */
  lemma ReferencesGrow(hits: seq<Meta>, formatScore: Value -> string, i: nat)
    requires TextsAreStrings(hits)
    requires i < |hits|
    ensures References(hits[..i + 1], formatScore)
            == References(hits[..i], formatScore)
               + [ReferenceLine(i + 1, hits[i], formatScore), SnippetLine(hits[i])]
  {
    var done := hits[..i + 1];
    assert done[..|done| - 1] == hits[..i];
  }

  /** The body of the report loop: the two lines of the hit numbered `i`. */
  method HitLines(i: int, hit: Meta, formatScore: Value -> string) returns (reference: string, snippetLine: string)
    requires TextIsString(hit)
    ensures reference == ReferenceLine(i, hit, formatScore)
    ensures snippetLine == SnippetLine(hit)
  {
    var source := if Truthy(Get(hit, "source")) then Get(hit, "source")
                  else if Truthy(Get(hit, "doc_id")) then Get(hit, "doc_id")
                  else Str("-");
    var score := GetOr(hit, "score", ZeroScore);
    var location := FormatLocation(hit);
    var note := if location != "" then " (" + location + ")" else "";
    var entry := "**" + Render(source) + "**" + note + " - skor: " + formatScore(score);
    reference := Strings.DecimalString(i) + ". " + entry;
    var text := if "text" in hit then hit["text"].s else "";
    var snippet := if |text| <= SnippetLimit then text else text[..SnippetLimit];
    snippetLine := "   > " + snippet;
  }

  /** The loop of `make_markdown_report`: appends the two lines of each hit, numbered from 1. */
  method AppendReferences(lines0: seq<string>, hits: seq<Meta>, formatScore: Value -> string)
    returns (lines: seq<string>)
    requires TextsAreStrings(hits)
    ensures lines == lines0 + References(hits, formatScore)
  {
    lines := lines0;
    assert hits[..0] == [];
    for i := 0 to |hits|
      invariant lines == lines0 + References(hits[..i], formatScore)
    {
      var reference, snippet := HitLines(i + 1, hits[i], formatScore);
      ReferencesGrow(hits, formatScore, i);
      Strings.ConcatAssoc(lines0, References(hits[..i], formatScore), [reference, snippet]);
      lines := lines + [reference, snippet];
    }
    assert hits[..|hits|] == hits;
  }

  /** `make_markdown_report`: the header lines, the references, the optional recommendation, joined by newlines. */
  method MakeMarkdownReport(query: string, answer: string, hits: seq<Meta>, rec: string,
                            timestamp: string, formatScore: Value -> string) returns (report: string)
    requires TextsAreStrings(hits)
    ensures report == Strings.Join("\n", ReportLines(query, answer, hits, rec, timestamp, formatScore))
  {
    var lines := [Title, "_Generated: " + timestamp + "_", ""];
    lines := lines + [QuestionHeader, query, ""];
    lines := lines + [AnswerHeader, answer, ""];
    lines := lines + [ReferencesHeader];
    assert lines == Header(timestamp, query, answer);
    lines := AppendReferences(lines, hits, formatScore);
    if rec != "" {
      lines := lines + ["", RecommendationHeader, rec];
    }
    assert lines == ReportLines(query, answer, hits, rec, timestamp, formatScore);
    report := Strings.Join("\n", lines);
  }
}

=== FILE: schemas.dfy ===
/**
 * The request and response records of the HTTP interface, with the bounds and defaults
 * their field declarations impose. Each `New...` function plays the part of validating
 * construction: absent optional arguments take their declared default, and an argument
 * outside its declared bounds is a validation error.
 */
module Schemas {
  import opened Wrappers
  import opened Values

  datatype ValidationError =
    | TooShort(field: string, minLength: nat)
    | OutOfRange(field: string, low: int, high: int)
    | MissingField(field: string)

  const MinPasswordLength: nat := 6
  const MinQuestionLength: nat := 4
  const MinTopK: int := 1
  const MaxTopK: int := 10
  const DefaultTopK: int := 5
  const DefaultRole: string := "user"
  const DefaultTokenType: string := "bearer"

  datatype TokenResponse = TokenResponse(accessToken: string, tokenType: string)

  /** `TokenResponse(access_token=..., token_type=...)`; the token type defaults to "bearer". */
  function NewTokenResponse(accessToken: string, tokenType: Option<string>): (r: TokenResponse)
    ensures r.accessToken == accessToken
    ensures tokenType.None? ==> r.tokenType == "bearer"
    ensures tokenType.Some? ==> r.tokenType == tokenType.value
  {
    TokenResponse(accessToken, tokenType.GetOr(DefaultTokenType))
  }

  /** The body of an administrator's request to create a user. Email syntax is not checked here. */
  datatype UserCreate = UserCreate(username: string, email: string, password: string, role: string)

  function NewUserCreate(username: string, email: string, password: string, role: Option<string>)
    : (r: Result<UserCreate, ValidationError>)
    ensures r.Ok? <==> |password| >= 6
    ensures r.Err? ==> r.error == TooShort("password", 6)
    ensures r.Ok? ==> r.value.username == username && r.value.email == email && r.value.password == password
    ensures r.Ok? && role.None? ==> r.value.role == "user"
    ensures r.Ok? && role.Some? ==> r.value.role == role.value
  {
    if |password| < MinPasswordLength then Err(TooShort("password", MinPasswordLength))
    else Ok(UserCreate(username, email, password, role.GetOr(DefaultRole)))
  }

  /** The body of a self-registration request; it carries no role. */
  datatype UserRegister = UserRegister(username: string, email: string, password: string)

  function NewUserRegister(username: string, email: string, password: string)
    : (r: Result<UserRegister, ValidationError>)
    ensures r.Ok? <==> |password| >= 6
    ensures r.Err? ==> r.error == TooShort("password", 6)
    ensures r.Ok? ==> r.value == UserRegister(username, email, password)
  {
    if |password| < MinPasswordLength then Err(TooShort("password", MinPasswordLength))
    else Ok(UserRegister(username, email, password))
  }

  datatype ChatRequest = ChatRequest(question: string, topK: int, useLlm: bool)

  /** What every ChatRequest that reaches a handler satisfies. */
  predicate ValidChatRequest(req: ChatRequest)
  {
    |req.question| >= MinQuestionLength && MinTopK <= req.topK <= MaxTopK
  }

  /** `ChatRequest(question=..., top_k=..., use_llm=...)`: top_k defaults to 5 and use_llm to false. */
  function NewChatRequest(question: string, topK: Option<int>, useLlm: Option<bool>)
    : (r: Result<ChatRequest, ValidationError>)
    ensures r.Ok? <==> |question| >= 4 && (topK.Some? ==> 1 <= topK.value <= 10)
    ensures r.Ok? ==> ValidChatRequest(r.value) && r.value.question == question
    ensures r.Ok? ==> r.value.topK == (if topK.Some? then topK.value else 5)
    ensures r.Ok? ==> r.value.useLlm == (useLlm.Some? && useLlm.value)
  {
    if |question| < MinQuestionLength then Err(TooShort("question", MinQuestionLength))
    else if topK.Some? && !(MinTopK <= topK.value <= MaxTopK) then Err(OutOfRange("top_k", MinTopK, MaxTopK))
    else Ok(ChatRequest(question, topK.GetOr(DefaultTopK), useLlm.GetOr(false)))
  }

  /**
   * One retrieved passage as returned to the client. Every field but `text` is optional;
   * `Null` stands for None.
   */
  datatype ContextHit = ContextHit(
    docId: Value, source: Value, text: Value, score: Value,
    page: Value, section: Value, sectionChunk: Value)

  /**
   * `ContextHit(**fields)`: `text` is required and may not be None; every other field
   * is None when it is not given.
   */
  function NewContextHit(fields: Meta): (r: Result<ContextHit, ValidationError>)
    ensures r.Ok? <==> "text" in fields && fields["text"] != Null
    ensures r.Err? ==> r.error == MissingField("text")
    ensures r.Ok? ==> r.value.text == fields["text"]
    ensures r.Ok? ==> r.value.docId == Get(fields, "doc_id") && r.value.source == Get(fields, "source")
    ensures r.Ok? ==> r.value.score == Get(fields, "score") && r.value.page == Get(fields, "page")
    ensures r.Ok? ==> r.value.section == Get(fields, "section")
    ensures r.Ok? ==> r.value.sectionChunk == Get(fields, "section_chunk")
  {
    if "text" !in fields || fields["text"] == Null then Err(MissingField("text"))
    else Ok(ContextHit(
      Get(fields, "doc_id"), Get(fields, "source"), fields["text"], Get(fields, "score"),
      Get(fields, "page"), Get(fields, "section"), Get(fields, "section_chunk")))
  }

  datatype ClassificationInfo = ClassificationInfo(labelName: string, score: Float)

  datatype ChatResponse = ChatResponse(
    answer: string, mode: string, context: seq<ContextHit>,
    classification: Option<ClassificationInfo>)
}

=== FILE: strings.dfy ===
/** String helpers shared by the modules: `sep.join(parts)` and `str(n)` for integers. */
module Strings {

  /** Python's `sep.join(parts)`. */
  function Join(sep: string, parts: seq<string>): string
  {
    if |parts| == 0 then ""
    else if |parts| == 1 then parts[0]
    else parts[0] + sep + Join(sep, parts[1..])
  }

  /** Joins of at most three parts, written out. */
  lemma JoinSmall(sep: string, parts: seq<string>)
    ensures parts == [] ==> Join(sep, parts) == ""
    ensures |parts| == 1 ==> Join(sep, parts) == parts[0]
    ensures |parts| == 2 ==> Join(sep, parts) == parts[0] + sep + parts[1]
    ensures |parts| == 3 ==> Join(sep, parts) == parts[0] + sep + parts[1] + sep + parts[2]
  {
    if |parts| == 3 {
      assert parts[1..][1..] == [parts[2]];
    }
  }

  predicate IsDigit(c: char) { '0' <= c <= '9' }

  function DigitChar(d: nat): char
    requires d < 10
  {
    "0123456789"[d]
  }

  function DigitValue(c: char): nat
    requires IsDigit(c)
  {
    (c as int - '0' as int) as nat
  }

  /** The decimal digits of `n`, most significant first, without leading zeros. */
  function Digits(n: nat): (r: string)
    ensures r != []
    ensures forall i :: 0 <= i < |r| ==> IsDigit(r[i])
    ensures |r| > 1 ==> r[0] != '0'
  {
    if n < 10 then [DigitChar(n)] else Digits(n / 10) + [DigitChar(n % 10)]
  }

  /** Reads a string of decimal digits back as a number. */
  function ParseDigits(s: string): nat
    requires forall i :: 0 <= i < |s| ==> IsDigit(s[i])
  {
    if s == [] then 0 else ParseDigits(s[..|s| - 1]) * 10 + DigitValue(s[|s| - 1])
  }

  /** Python's `str(n)` for an int: an optional minus sign, then the digits. */
  function DecimalString(n: int): (r: string)
    ensures r != []
    ensures n >= 0 ==> forall i :: 0 <= i < |r| ==> IsDigit(r[i])
    ensures n < 0 ==> r[0] == '-' && forall i :: 1 <= i < |r| ==> IsDigit(r[i])
  {
    if n < 0 then ['-'] + Digits(-n) else Digits(n)
  }

  /** Reads back what DecimalString writes. */
  function ParseDecimal(s: string): int
    requires s != []
    requires s[0] == '-' ==> forall i :: 1 <= i < |s| ==> IsDigit(s[i])
    requires s[0] != '-' ==> forall i :: 0 <= i < |s| ==> IsDigit(s[i])
  {
    if s[0] == '-' then -(ParseDigits(s[1..]) as int) else ParseDigits(s)
  }

  lemma {:induction false} DigitsRoundTrip(n: nat)
    ensures ParseDigits(Digits(n)) == n
  {
    if n >= 10 {
      var d := Digits(n);
      assert d[..|d| - 1] == Digits(n / 10);
      DigitsRoundTrip(n / 10);
    }
  }

  /** A minus sign in front of digits negates what the digits read as. */
  lemma ParseNegative(d: string)
    requires forall i :: 0 <= i < |d| ==> IsDigit(d[i])
    ensures ParseDecimal(['-'] + d) == -(ParseDigits(d) as int)
  {
    assert (['-'] + d)[1..] == d;
  }

  lemma NegativeRoundTrip(n: int)
    requires n < 0
    ensures ParseDecimal(['-'] + Digits(-n)) == n
  {
    ParseNegative(Digits(-n));
    DigitsRoundTrip(-n);
  }

  /** `str(n)` loses nothing: the number can be read back from it. */
  lemma DecimalRoundTrip(n: int)
    ensures ParseDecimal(DecimalString(n)) == n
  {
    if n < 0 {
      NegativeRoundTrip(n);
      assert DecimalString(n) == ['-'] + Digits(-n);
    } else {
      DigitsRoundTrip(n);
    }
  }

  /** Distinct numbers are written differently. */
  lemma DecimalInjective(m: int, n: int)
    requires m != n
    ensures DecimalString(m) != DecimalString(n)
  {
    DecimalRoundTrip(m);
    DecimalRoundTrip(n);
  }

  /** Concatenation regroups freely. */
  lemma ConcatAssoc<T>(a: seq<T>, b: seq<T>, c: seq<T>)
    ensures (a + b) + c == a + (b + c)
  {
  }
}

=== FILE: values.dfy ===
/**
 * The dynamically typed values that the Python code keeps in metadata dictionaries
 * (chunk metadata, index records, search hits), with the parts of Python's semantics
 * the core relies on: `dict.get`, truthiness and `str()`.
 */
module Values {
  import Strings

  /** A Python float. Its numeric value decides truthiness; `repr` is the text `str()` gives for it. */
  datatype Float = Float(x: real, repr: string)

  datatype Value = Null | Bool(b: bool) | Int(i: int) | Num(f: Float) | Str(s: string)

  /** A Python `dict` with string keys. */
  type Meta = map<string, Value>

  /** `d.get(key)`: None when the key is absent. */
  function Get(d: Meta, key: string): (v: Value)
    ensures key in d ==> v == d[key]
    ensures key !in d ==> v == Null
  {
    if key in d then d[key] else Null
  }

  /** `d.get(key, default)`. */
  function GetOr(d: Meta, key: string, default: Value): (v: Value)
    ensures key in d ==> v == d[key]
    ensures key !in d ==> v == default
  {
    if key in d then d[key] else default
  }

  /** Python truthiness: None, False, 0, 0.0 and "" are false. */
  predicate Truthy(v: Value)
  {
    match v
    case Null => false
    case Bool(b) => b
    case Int(i) => i != 0
    case Num(f) => f.x != 0.0
    case Str(s) => s != ""
  }

  /** `str(v)`, as an f-string interpolation `{v}` prints it. */
  function Render(v: Value): string
  {
    match v
    case Null => "None"
    case Bool(b) => if b then "True" else "False"
    case Int(i) => Strings.DecimalString(i)
    case Num(f) => f.repr
    case Str(s) => s
  }
}

=== FILE: wrappers.dfy ===
/** Optional values and error-carrying results, used where the Python code returns None or raises. */
module Wrappers {

  datatype Option<+T> = None | Some(value: T) {
    /** The value, or `default` when there is none (Python's `x if x is not None else default`). */
    function GetOr(default: T): T {
      if Some? then value else default
    }
  }

  datatype Result<+T, +E> = Ok(value: T) | Err(error: E)
}
